=== FILE: README.md ===
# Sketchpad: a Dafny model of the drawing history and its event handlers

This project models the logic of the browser sketchpad in `src/main.ts`. That logic covers:

- **Renderables.** A `Line` is a point list with a colour and a width; `drag` appends a point to it. A `Sticker` is a glyph at a position with a font size.
- **History.** Two stacks: `lines` holds the committed items, oldest first. `redoLines` holds the undone items, most recently undone last.
- **Input handlers.** The pointer handlers (`mousedown`, `mousemove`, `mouseup`, `mouseenter`, `mouseleave`), the Undo, Redo and Clear buttons, and the tool controls (Draw button, sticker buttons, the "+" custom-sticker button, colour picker, brush and sticker sliders).
- **Render plan.** What `redraw` and `exportDrawing` put on a canvas.

The state is an immutable record, `Sketchpad.Sketch`, and every handler is a pure function from state to state.

Object identity is modelled explicitly. Every created item lives in `objects` at an index that serves as its id, and both stacks and the in-progress stroke `thisLine` hold ids. This matters because the page keeps `thisLine` pointing at the same `Line` object it pushed onto `lines`. If the button is released outside the canvas, `mouseup` never fires, so a later undo moves that very object onto `redoLines`, and further moves still extend it. `History.LiveStrokeFollowsUndo` proves the model keeps this behaviour.

Drawing is modelled as a sequence of abstract canvas operations (`Renderables.DrawOp`). Its partner is an independent reader, `Readback.Recover`, which reads a sequence of operations back into the items it depicts. The main rendering results are stated through it:

- a render shows exactly the committed items, in order, followed by the hover preview;
- an export shows exactly the committed items.

The reader recognises a polyline only when its `moveTo` goes to the first `lineTo` target, and a dot only when the circle's radius is half a whole width. `display` always draws them that way.

Texts carry no colour of their own on a canvas: `fillText` paints in the fill style in effect. The module `FillStyle` tracks that style through a render. A sticker is painted in the colour of the last dot drawn before it. If there is none, it takes the fill style the canvas already had: the export background, or black when the export has no background, or on screen whatever the previous redraw left, such as the colour of the brush preview.

Modules:

- `Options`: `Option` and JavaScript truthiness of a `string | null`.
- `Seqs`: reversal and small sequence facts.
- `Renderables`: items, `drag`, `display`, and the draw operations.
- `Readback`: reading operations back into items.
- `FillStyle`: the canvas fill style, and the colour a sticker's text is painted in.
- `Palette`: the sticker palette, JavaScript `String.prototype.trim`, and custom-sticker input.
- `Sketchpad`: the state, its well-formedness, every handler, `redraw` and export.
- `History`: properties that relate several events.
- `Session`: one event type for all user actions, running sequences of events, and invariants of reachable states.

## Model

| member | source | states |
|---|---|---|
| Renderables.Drag | src/main.ts:113-115 | drag appends exactly the given point at the end of a line; colour, width and earlier points are kept |
| Renderables.ExtendsTransitive | src/main.ts:113-115 | "only grown by drags" is transitive: a line extended twice keeps its style and its original points as a prefix |
| Renderables.LineTos | src/main.ts:105-107 | one lineTo per point, in order, the first point included |
| Renderables.Display | src/main.ts:84-110 | no points draw nothing; one point draws one filled circle of radius width/2 in the line's colour; two or more points draw beginPath, moveTo the first point, one lineTo per point in order, then one stroke; a sticker draws one fillText of its glyph at its position and size |
| Renderables.DisplayNonEmptyIffVisible | src/main.ts:85 | an item draws something exactly when it is not an empty line |
| Renderables.DisplayAllAppend | src/main.ts:198 | drawing two runs of items is drawing the first run, then the second |
| Renderables.ThreePointPolyline | src/main.ts:101-109 | a concrete three-point line: the first point is visited twice, by moveTo and by the first lineTo |
| Readback.ReadItemDisplay | src/main.ts:84-131 | the operations of one visible item read back as exactly that item, and consume exactly its own operations |
| Readback.RecoverDisplay | src/main.ts:84-131 | what a visible item draws reads back as that item, whatever is drawn after it |
| Readback.RecoverDisplayAll | src/main.ts:197-198 | drawing visible items in order reads back as those same items in the same order: nothing dropped, added or reordered |
| Readback.RecoverSkips | src/main.ts:197 | clearing, background fill and scaling depict no item |
| Readback.MisplacedStartIsNoLine | src/main.ts:101-109 | a path whose moveTo is not its first point is not read as a line: the two-point line drawn with its move at the wrong end reads back as nothing, while its proper drawing reads back as the line |
| Readback.OddRadiusIsNoDot | src/main.ts:92-97 | a circle whose radius is not half a whole width is not read as a dot: radius 1.75 reads back as nothing, while the dot of width 3 (radius 1.5) reads back as that dot |
| FillStyle.FillAfterAppend | src/main.ts:96 | the fill style after two runs of operations is the style the first run leaves, carried through the second |
| FillStyle.DisplayFill | src/main.ts:84-131 | drawing a dot leaves its colour as the fill style; drawing a polyline or a sticker leaves the fill style as it was |
| FillStyle.DisplayAllKeepsFill | src/main.ts:198 | drawing items none of which is a dot leaves the fill style as it was |
| FillStyle.TextFill | src/main.ts:127-131 | a sticker's fillText, with no dot before it among the items, is painted in the fill style left by what was drawn before the items |
| Palette.TrimStart | src/main.ts:167 | leading JavaScript whitespace is dropped: the result is a suffix of the input, what was dropped is all whitespace, and the result does not start with whitespace |
| Palette.TrimEnd | src/main.ts:167 | trailing JavaScript whitespace is dropped: the result is a prefix of the input, what was dropped is all whitespace, and the result does not end with whitespace |
| Palette.Trim | src/main.ts:167-169 | trim removes whitespace from both ends only: the input is the result wrapped in whitespace, the result has no whitespace at either end, and it is empty exactly when the input is all whitespace |
| Palette.TrimIdempotent | src/main.ts:169 | trimming an already trimmed string changes nothing |
| Palette.AddCustomSticker | src/main.ts:165-172 | a null, empty or all-whitespace answer leaves the palette unchanged; any other answer appends exactly its trimmed form, which is non-empty |
| Palette.InitialWellFormed | src/main.ts:135 | the initial palette has no empty glyph |
| Palette.AddCustomStickerKeepsWellFormed | src/main.ts:165-172 | adding a custom sticker never puts an empty glyph on the palette |
| Sketchpad.Resolve | src/main.ts:185-186 | resolving ids gives, position by position, the objects they name |
| Sketchpad.Committed | src/main.ts:185 | the committed items are as many as the committed ids, and each draws something |
| Sketchpad.Undone | src/main.ts:186 | the undone items are as many as the undone ids |
| Sketchpad.Init | src/main.ts:49-69 | the page starts well formed with nothing committed or undone, no stroke in progress, the button up, not hovering, in Drawing mode, no glyph selected and a palette without empty glyphs |
| Sketchpad.Commit | src/main.ts:228-230 | a newly created object is pushed on the committed stack and the redo stack is emptied; the committed items gain exactly that item at the end |
| Sketchpad.MouseDown | src/main.ts:222-244 | the button goes down at the press point; in Drawing mode one new one-point line in the current colour and width is committed and becomes the stroke in progress; in Sticker mode with a truthy glyph one sticker at the press point and current size is committed; either commit empties the redo stack; with no glyph neither stack changes |
| Sketchpad.MouseMove | src/main.ts:246-263 | only when dragging in Drawing mode does the stroke in progress change, and it becomes exactly its drag by the point (the point at its end, colour and width kept), wherever that stroke sits; no other object changes and the stacks stay; the cursor follows the pointer when dragging or hovering |
| Sketchpad.MouseMoveOnlyExtends | src/main.ts:246-253 | a move never removes or reorders points and never changes a sticker |
| Sketchpad.MouseUp | src/main.ts:265-270 | release clears the button state and the stroke in progress; nothing else changes |
| Sketchpad.MouseEnter | src/main.ts:273-277 | entering sets hovering and changes nothing else |
| Sketchpad.MouseLeave | src/main.ts:279-283 | leaving clears hovering and changes nothing else, not even the button state |
| Sketchpad.Undo | src/main.ts:287-292 | with something committed, the newest committed id moves to the top of the redo stack; with nothing committed the state is unchanged; only the stacks change |
| Sketchpad.Redo | src/main.ts:296-301 | with something undone, the top of the redo stack moves back to the end of the committed stack; with nothing undone the state is unchanged; only the stacks change |
| Sketchpad.UndoMovesItem | src/main.ts:288-289 | as items: undo takes the newest committed item off the canvas and puts it on top of the undone items |
| Sketchpad.RedoMovesItem | src/main.ts:297-298 | as items: redo puts the most recently undone item back on top of the committed items |
| Sketchpad.UndoRedoKeepTimeline | src/main.ts:287-301 | undo and redo never reorder history: the committed ids followed by the undone ids in redo order stay the same sequence |
| Sketchpad.Clear | src/main.ts:305-308 | clear empties the committed items and leaves the undone items, the stroke in progress and all other state as they were |
| Sketchpad.SelectDraw | src/main.ts:323-326 | the Draw button switches to Drawing mode and changes nothing else |
| Sketchpad.ActivateStickerTool | src/main.ts:340-343 | switches to Sticker mode with the given glyph selected and changes nothing else |
| Sketchpad.SetColor | src/main.ts:347-349 | the colour picker sets the current colour and changes nothing else |
| Sketchpad.SetBrushWidth | src/main.ts:355-362 | the brush slider sets the current width and changes nothing else |
| Sketchpad.SetStickerSize | src/main.ts:371-377 | the sticker slider sets the sticker size and changes nothing else |
| Sketchpad.AddCustomSticker | src/main.ts:165-172 | the "+" button changes the palette as the custom-sticker rule says, keeps a palette without empty glyphs that way, and changes nothing else |
| Sketchpad.Preview | src/main.ts:200-213 | at most one preview operation; it is drawn exactly when hovering and a press would commit something (Drawing mode, or Sticker mode with a truthy glyph), and then it draws exactly what that press would commit |
| Sketchpad.RecoverPreview | src/main.ts:200-213 | the preview reads back as the pending item, and as nothing when it is not drawn |
| Sketchpad.Redraw | src/main.ts:196-214 | redraw starts by clearing the 256x256 canvas, and what it draws reads back as exactly the committed items in order followed by the preview item |
| Sketchpad.Export | src/main.ts:393-411 | the export reads back as exactly the committed items, with no preview; a truthy background fills the 1024x1024 image before scaling by 4, and otherwise scaling comes first; besides the setup (fill and scale, or scale alone) it issues exactly as many operations as the committed items draw, so nothing else is filled or scaled |
| Sketchpad.ExportSetupFill | src/main.ts:400-403 | before the first item, the export's fill style is the background colour when one is given, and the default black otherwise |
| Sketchpad.ExportTextFill | src/main.ts:127-131 | in the export, the fillText of a sticker with no dot before it (its own, right after the setup and the items before it) is painted in the background colour: white on white with the white background, and black without a background |
| Sketchpad.RedrawTextFill | src/main.ts:196-198 | on screen, the fillText of a sticker with no dot before it (its own, right after the clear and the items before it) is painted in the fill style the canvas had before the redraw, since clearing does not reset it |
| Sketchpad.RedrawLeavesFill | src/main.ts:200-206 | a redraw with the brush preview showing leaves the brush colour as the fill style, which the next redraw's stickers inherit |
| History.UndoThenRedo | src/main.ts:287-301 | with something committed, undo then redo restores the whole state |
| History.RedoThenUndo | src/main.ts:287-301 | with something undone, redo then undo restores the whole state |
| History.UndoTimes | src/main.ts:287-292 | repeated undos keep the state well formed and never touch the objects or the stroke in progress |
| History.RedoTimes | src/main.ts:296-301 | repeated redos keep the state well formed and never touch the objects or the stroke in progress |
| History.UndoTimesMoves | src/main.ts:288-289 | n undos move the newest n committed ids onto the redo stack, newest first |
| History.UndoTimesItems | src/main.ts:288-289 | n undos leave the oldest items committed and stack the newest n items as undone, in reverse order |
| History.UndoTimesThenRedoTimes | src/main.ts:287-301 | n undos followed by n redos restore the whole state |
| History.PressRelease | src/main.ts:222-270 | a click in Drawing mode commits exactly one dot in the current colour and width and empties the redo stack |
| History.Strokes | src/main.ts:222-270 | clicks at a list of points commit one dot per point, in order |
| History.StrokesThenUndos | src/main.ts:222-292 | that many clicks followed by as many undos restore the committed items and leave exactly those dots as undone, in reverse order |
| History.ClearThenRedo | src/main.ts:296-308 | because clear keeps the redo stack, a redo right after it shows the most recently undone item alone |
| History.RedrawAfterClear | src/main.ts:196-214 | after clear, the canvas shows only the hover preview |
| History.NoRedoAfterNewWork | src/main.ts:226-230 | a new stroke after an undo leaves nothing to redo |
| History.PressThenUndo | src/main.ts:226-230 | undo right after a press moves the new stroke to the redo stack while it stays the stroke in progress |
| History.DragMove | src/main.ts:246-253 | while dragging, a move extends exactly the stroke in progress and leaves the stacks alone |
| History.PressUndoMove | src/main.ts:226-253 | press, undo, then move: the undone stroke still gains the moved-to point |
| History.LiveStrokeFollowsUndo | src/main.ts:226-301 | press, undo, move, redo: the stroke comes back committed with the point it gained while undone |
| History.ReleasedStrokeIsFinal | src/main.ts:265-267 | after release, moves no longer change any object |
| History.PreviewMatchesPress | src/main.ts:200-241 | the hover preview draws exactly the item that a press at the cursor then commits |
| History.EnterThenLeave | src/main.ts:273-283 | entering then leaving the canvas restores the state as it was before entering |
| History.BrushSettingsReachPress | src/main.ts:222-231 | after the Draw button, a colour and a width are chosen, the next press commits a dot in exactly that colour and width |
| History.StickerSettingsReachPress | src/main.ts:232-241 | after a non-empty glyph and a size are chosen, the next press places exactly that glyph at that size |
| Session.Step | src/main.ts:150-377 | dispatching each user action to its handler (palette buttons at 150-153, "+" at 165-172, canvas, history buttons and tool controls at 222-377), every event keeps the state well formed and the tool invariant; only presses and moves touch objects; only presses and the three history buttons touch the stacks |
| Session.Run | src/main.ts:221-377 | any sequence of events keeps the state well formed and the tool invariant |
| Session.RunAppend | src/main.ts:221-377 | running two event sequences one after the other is running their concatenation |
| Session.StepOnlyGrows | src/main.ts:113-115 | no single event changes a created object except by appending points to a line: a line keeps its colour, width and earlier points, and a sticker never changes (items can still leave the stacks: clear drops the committed ones and a new press drops the undone ones) |
| Session.RunOnlyGrows | src/main.ts:246-253 | across any sequence of events, every created object is still the same object, changed at most by points appended to a line |
| Session.ReachableToolsOk | src/main.ts:340-343 | in every reachable state the palette has no empty glyph and a selected glyph is one of the palette's |
| Session.ReachableStickerPressCommits | src/main.ts:232-241 | in every reachable state, a press in Sticker mode with a glyph selected always places that glyph |
| Session.ToolEventsKeepDrawing | src/main.ts:323-377 | tool events change neither the drawing, the stacks, the stroke in progress, the cursor nor hovering |

## Left out

- The page's HTML, button creation and `selectButton` styling are not modelled: they are user-interface scaffolding without logic of their own.
- The `EventTarget` and `notify` dispatch is not modelled. `Sketchpad.Redraw` is the render of a given state; the model does not record when the page actually redraws. The pointer handlers, the history buttons and the two sliders call `notify`. The colour picker (lines 347-349), the Draw button (323-326), the sticker buttons (150-153) and the "+" button (165-172) do not. After one of those, the canvas keeps showing the previous render and preview until the next event that notifies.
- Canvas drawing is not modelled. `Math.PI` arcs, font strings, `lineCap`, `textAlign` and the actual scaling are floating point or host library. Drawing is an abstract operation list; a dot's radius is kept as the real number `width / 2`.
- PNG encoding, `toDataURL` and the download link are not modelled; they are I/O.
- The `prompt` dialog is not modelled: its answer is a parameter. The same goes for the slider values, which are taken as already parsed integers, since `parseInt` of a range input is a browser call. The background setting of the export buttons is also a parameter.
- Coordinates are integers: mouse offsets are integral pixel values in practice.
- `Sketchpad.SetBrushWidth` accepts any integer, as the handler does. What the canvas does with a width below 1 is not modelled: `arc` throws on a negative radius (lines 95 and 204), and a `lineWidth` of zero or less is ignored.
- `Sketchpad.Export`: its read-back contract compares glyphs, positions and sizes, not the colour a sticker is painted in. That colour is inherited, not set: `Sticker.display` (lines 127-131) never sets `fillStyle`. `Sketchpad.ExportTextFill` states the consequence: with the white background, a custom text sticker committed before any dot is painted white on white. For `Sketchpad.Redraw` the colour depends on what the previous redraw left, which the state does not record; `Sketchpad.RedrawTextFill` and `Sketchpad.RedrawLeavesFill` take it as a parameter.
- The sticker-button handler at lines 330-338 is not modelled. It runs once at load, before `createStickerButtons` (line 422) has created any sticker button, so it attaches to nothing. Sticker selection goes through the per-button handler created at lines 150-153, which `Session.StickerClick` models.

## Design choices

- The hover preview is drawn whenever the pointer is over the canvas, even while a stroke is being dragged, because `redraw` checks only `isHovering` (lines 200-213).
- Custom input is trimmed before it is stored, so leading and trailing whitespace are not part of a custom glyph (lines 167-172).
- Clear empties only `lines` and keeps the redo stack (line 306). So a redo after a clear brings back an undone item.
- The heart glyph is taken as U+2764 U+FE0F, as in the source file's bytes. Strings are sequences of UTF-16 code units there and of Unicode scalar values here, which only matters for characters outside the Basic Multilingual Plane; no string length is ever measured.

=== FILE: fillstyle.dfy ===
/**
 * The canvas fill style as state of the drawing context. A filled circle and a filled
 * rectangle set it; a text carries no colour of its own and is painted in whatever fill
 * style is in effect when it comes. A sticker therefore takes its colour from what was
 * drawn before it.
 */
module FillStyle {
  import opened Renderables

  /** The fill style of a fresh canvas context: opaque black. */
  const DefaultFill: Color := "#000000"

  /** The fill style in effect once `op` has run, starting from `fill`. */
  function FillOf(fill: Color, op: DrawOp): Color
  {
    match op
    case FillCircle(_, _, c) => c
    case FillRect(f, _, _, _, _) => f
    case _ => fill
  }

  /** The fill style in effect after `ops`, starting from `fill`. */
  function FillAfter(fill: Color, ops: seq<DrawOp>): Color
    decreases |ops|
  {
    if |ops| == 0 then fill else FillAfter(FillOf(fill, ops[0]), ops[1..])
  }

  /** A one-point line: the only item whose drawing fills, and so sets the fill style. */
  predicate IsDot(item: Renderable)
  {
    item.Line? && |item.points| == 1
  }

  predicate NoDots(items: seq<Renderable>)
  {
    forall i :: 0 <= i < |items| ==> !IsDot(items[i])
  }

  /** Running two sequences of operations threads the fill style from one to the next. */
  lemma {:induction false} FillAfterAppend(fill: Color, a: seq<DrawOp>, b: seq<DrawOp>)
    ensures FillAfter(fill, a + b) == FillAfter(FillAfter(fill, a), b)
    decreases |a|
  {
    if |a| == 0 {
      assert a + b == b;
    } else {
      assert (a + b)[1..] == a[1..] + b;
      FillAfterAppend(FillOf(fill, a[0]), a[1..], b);
    }
  }

  /** A run of `lineTo`s leaves the fill style alone. */
  lemma {:induction false} LineTosKeepFill(fill: Color, pts: seq<Point>)
    ensures FillAfter(fill, LineTos(pts)) == fill
    decreases |pts|
  {
    if |pts| > 0 {
      assert LineTos(pts)[1..] == LineTos(pts[1..]);
      LineTosKeepFill(fill, pts[1..]);
    }
  }

  /**
   * Drawing one item leaves the fill style at the item's colour when the item is a dot,
   * and unchanged otherwise: a polyline only strokes and a sticker only fills text.
   */
  lemma DisplayFill(fill: Color, item: Renderable)
    ensures FillAfter(fill, Display(item)) == if IsDot(item) then item.color else fill
  {
    if item.Line? && |item.points| >= 2 {
      var ops := Display(item);
      var head: seq<DrawOp> := [BeginPath, MoveTo(item.points[0])];
      assert ops == head + (LineTos(item.points) + [Stroke(item.color, item.width)]);
      FillAfterAppend(fill, head, LineTos(item.points) + [Stroke(item.color, item.width)]);
      FillAfterAppend(fill, LineTos(item.points), [Stroke(item.color, item.width)]);
      LineTosKeepFill(fill, item.points);
    }
  }

  /** Drawing items none of which is a dot leaves the fill style alone. */
  lemma {:induction false} DisplayAllKeepsFill(fill: Color, items: seq<Renderable>)
    requires NoDots(items)
    ensures FillAfter(fill, DisplayAll(items)) == fill
    decreases |items|
  {
    if |items| > 0 {
      FillAfterAppend(fill, Display(items[0]), DisplayAll(items[1..]));
      DisplayFill(fill, items[0]);
      assert NoDots(items[1..]) by {
        forall i | 0 <= i < |items[1..]| ensures !IsDot(items[1..][i]) {
          assert items[1..][i] == items[1 + i];
        }
      }
      DisplayAllKeepsFill(fill, items[1..]);
    }
  }

  /**
   * In a render `ops` made of `pre`, the items and `post`, a sticker that no dot precedes
   * among the items is drawn, at the position after `pre` and the items before it, in the
   * fill style `pre` leaves behind.
   */
  lemma TextFill(fill: Color, ops: seq<DrawOp>, pre: seq<DrawOp>, items: seq<Renderable>,
                 post: seq<DrawOp>, j: nat)
    requires ops == pre + DisplayAll(items) + post
    requires j < |items| && items[j].Sticker? && NoDots(items[..j])
    ensures var n := |pre| + |DisplayAll(items[..j])|;
            n < |ops| && ops[n] == FillText(items[j].emoji, items[j].pos, items[j].fontSize)
            && FillAfter(fill, ops[..n]) == FillAfter(fill, pre)
  {
    var front := DisplayAll(items[..j]);
    var back := DisplayAll(items[j..]);
    assert items == items[..j] + items[j..];
    DisplayAllAppend(items[..j], items[j..]);
    assert back[0] == FillText(items[j].emoji, items[j].pos, items[j].fontSize);
    var x := pre + front;
    assert ops == x + (back + post);
    assert ops[..|x|] == x;
    FillAfterAppend(fill, pre, front);
    DisplayAllKeepsFill(FillAfter(fill, pre), items[..j]);
  }
}

=== FILE: history.dfy ===
/**
 * Properties of the undo/redo history that relate several events: round trips, runs of
 * undos, commits followed by undos, clear followed by redo, and the way the stroke in
 * progress stays attached to its object while that object moves between the stacks.
 */
module History {
  import opened Options
  import opened Renderables
  import opened Seqs
  import opened Sketchpad
  import Readback

  /** Undo then redo restores the whole state. */
  lemma UndoThenRedo(s: Sketch)
    requires Valid(s) && |s.lines| > 0
    ensures Redo(Undo(s)) == s
  {
    var n := |s.lines|;
    assert s.lines[..n - 1] + [s.lines[n - 1]] == s.lines;
    assert (s.redoLines + [s.lines[n - 1]])[..|s.redoLines|] == s.redoLines;
  }

  /** Redo then undo restores the whole state. */
  lemma RedoThenUndo(s: Sketch)
    requires Valid(s) && |s.redoLines| > 0
    ensures Undo(Redo(s)) == s
  {
    var n := |s.redoLines|;
    assert s.redoLines[..n - 1] + [s.redoLines[n - 1]] == s.redoLines;
    assert (s.lines + [s.redoLines[n - 1]])[..|s.lines|] == s.lines;
  }

  /** `n` presses of the Undo button. */
  function UndoTimes(s: Sketch, n: nat): (r: Sketch)
    requires Valid(s)
    ensures Valid(r) && r.objects == s.objects && r.thisLine == s.thisLine
    decreases n
  {
    if n == 0 then s else UndoTimes(Undo(s), n - 1)
  }

  /** `n` presses of the Redo button. */
  function RedoTimes(s: Sketch, n: nat): (r: Sketch)
    requires Valid(s)
    ensures Valid(r) && r.objects == s.objects && r.thisLine == s.thisLine
    decreases n
  {
    if n == 0 then s else Redo(RedoTimes(s, n - 1))
  }

  /**
   * `n` undos move the newest `n` committed ids onto the redo stack, newest first, so
   * the oldest of them ends on top.
   */
  lemma {:induction false} UndoTimesMoves(s: Sketch, n: nat)
    requires Valid(s) && n <= |s.lines|
    ensures UndoTimes(s, n).lines == s.lines[..|s.lines| - n]
    ensures UndoTimes(s, n).redoLines == s.redoLines + Reverse(s.lines[|s.lines| - n..])
    decreases n
  {
    if n == 0 {
      assert s.lines[|s.lines|..] == [];
    } else {
      var u := Undo(s);
      UndoTimesMoves(u, n - 1);
      UndoStep(s.lines, s.redoLines, n);
    }
  }

  /** The sequence algebra of one undo followed by `n - 1` more. */
  lemma UndoStep<T>(done: seq<T>, undone: seq<T>, n: nat)
    requires 0 < n <= |done|
    ensures var m := |done|;
            && done[..m - 1][..m - 1 - (n - 1)] == done[..m - n]
            && (undone + [done[m - 1]]) + Reverse(done[..m - 1][m - 1 - (n - 1)..])
               == undone + Reverse(done[m - n..])
  {
    var m := |done|;
    var top := done[m - 1];
    var before := done[m - n..m - 1];
    assert done[..m - 1][m - 1 - (n - 1)..] == before;
    assert before + [top] == done[m - n..];
    ReverseSnoc(before, top);
  }

  /**
   * The same in terms of items: `n` undos take the newest `n` committed items off the
   * canvas and stack them as undone, newest first.
   */
  lemma UndoTimesItems(s: Sketch, n: nat)
    requires Valid(s) && n <= |s.lines|
    ensures Committed(UndoTimes(s, n)) == Committed(s)[..|s.lines| - n]
    ensures Undone(UndoTimes(s, n)) == Undone(s) + Reverse(Committed(s)[|s.lines| - n..])
  {
    var k := |s.lines| - n;
    UndoTimesMoves(s, n);
    StacksAllocated(s);
    ResolvePrefix(s.objects, s.lines, k);
    ResolveReversedSuffix(s.objects, s.lines, k);
    ResolveAppend(s.objects, s.redoLines, Reverse(s.lines[k..]));
  }

  /** `n` undos followed by `n` redos restore the whole state. */
  lemma {:induction false} UndoTimesThenRedoTimes(s: Sketch, n: nat)
    requires Valid(s) && n <= |s.lines|
    ensures RedoTimes(UndoTimes(s, n), n) == s
    decreases n
  {
    if n > 0 {
      UndoTimesThenRedoTimes(Undo(s), n - 1);
      UndoThenRedo(s);
    }
  }

  /** Press and release at `p` in Drawing mode: one dot is committed. */
  function PressRelease(s: Sketch, p: Point): (r: Sketch)
    requires Valid(s) && s.tools.mode == Drawing
    ensures Valid(r) && r.tools == s.tools && Kept(s.objects, r.objects)
    ensures |r.lines| == |s.lines| + 1 && r.lines[..|s.lines|] == s.lines
    ensures Committed(r) == Committed(s) + [Line([p], s.tools.color, s.tools.width)]
    ensures r.redoLines == []
  {
    var down := MouseDown(s, p);
    var r := MouseUp(down);
    assert r.objects == down.objects && r.lines == down.lines;
    r
  }

  /** Press and release at each point in turn, in Drawing mode. */
  function Strokes(s: Sketch, ps: seq<Point>): (r: Sketch)
    requires Valid(s) && s.tools.mode == Drawing
    ensures Valid(r) && r.tools == s.tools && Kept(s.objects, r.objects)
    ensures |r.lines| == |s.lines| + |ps| && r.lines[..|s.lines|] == s.lines
    ensures Committed(r) == Committed(s) + Dots(ps, s.tools.color, s.tools.width)
    ensures |ps| > 0 ==> r.redoLines == []
    ensures |ps| == 0 ==> r == s
    decreases |ps|
  {
    if |ps| == 0 then s
    else
      var next := PressRelease(s, ps[0]);
      var r := Strokes(next, ps[1..]);
      DotsCons(ps, s.tools.color, s.tools.width);
      AppendAssoc(Committed(s), [Line([ps[0]], s.tools.color, s.tools.width)],
                  Dots(ps[1..], s.tools.color, s.tools.width));
      PrefixOfPrefix(r.lines, |next.lines|, |s.lines|);
      PrefixOfPrefix(r.objects, |next.objects|, |s.objects|);
      r
  }

  /** The one-point lines that presses at `ps` commit. */
  function Dots(ps: seq<Point>, c: Color, w: int): (r: seq<Renderable>)
    ensures |r| == |ps|
    ensures forall i :: 0 <= i < |ps| ==> r[i] == Line([ps[i]], c, w)
  {
    seq(|ps|, i requires 0 <= i < |ps| => Line([ps[i]], c, w))
  }

  lemma DotsCons(ps: seq<Point>, c: Color, w: int)
    requires |ps| > 0
    ensures Dots(ps, c, w) == [Line([ps[0]], c, w)] + Dots(ps[1..], c, w)
  {
    var a := Dots(ps, c, w);
    var b := [Line([ps[0]], c, w)] + Dots(ps[1..], c, w);
    assert |a| == |b|;
    forall i | 0 <= i < |a|
      ensures a[i] == b[i]
    {
      if i > 0 {
        assert b[i] == Dots(ps[1..], c, w)[i - 1];
      }
    }
  }

  /**
   * Any number of strokes followed by as many undos: the committed items are back to
   * what they were, and the undone items are exactly those strokes, in reverse order.
   */
  lemma StrokesThenUndos(s: Sketch, ps: seq<Point>)
    requires Valid(s) && s.tools.mode == Drawing && |ps| > 0
    ensures var u := UndoTimes(Strokes(s, ps), |ps|);
            && Committed(u) == Committed(s)
            && Undone(u) == Reverse(Dots(ps, s.tools.color, s.tools.width))
  {
    var t := Strokes(s, ps);
    var dots := Dots(ps, s.tools.color, s.tools.width);
    UndoTimesItems(t, |ps|);
    assert (Committed(s) + dots)[..|s.lines|] == Committed(s);
    assert (Committed(s) + dots)[|s.lines|..] == dots;
    assert Undone(t) == [];
  }

  /**
   * Clear keeps the redo stack: a redo right after it brings back the most recently
   * undone item, alone.
   */
  lemma ClearThenRedo(s: Sketch)
    requires Valid(s) && |s.redoLines| > 0
    ensures Committed(Redo(Clear(s))) == [Undone(s)[|s.redoLines| - 1]]
  {
  }

  /** After Clear the canvas shows nothing but the hover preview. */
  lemma RedrawAfterClear(s: Sketch)
    requires Valid(s)
    ensures Readback.Recover(Redraw(Clear(s))) == PreviewItems(s)
  {
    assert Clear(s).(lines := s.lines) == s;
    assert PreviewItems(Clear(s)) == PreviewItems(s);
  }

  /** New work after an undo leaves nothing to redo. */
  lemma NoRedoAfterNewWork(s: Sketch, p: Point)
    requires Valid(s) && s.tools.mode == Drawing
    ensures var t := MouseDown(Undo(s), p); Redo(t) == t
  {
  }

  /** A press in Drawing mode followed by undo leaves the new stroke alone on the redo stack, still live. */
  lemma PressThenUndo(s: Sketch, p: Point)
    requires Valid(s) && s.tools.mode == Drawing
    ensures var b := Undo(MouseDown(s, p));
            && b.objects == s.objects + [Line([p], s.tools.color, s.tools.width)]
            && b.lines == s.lines && b.redoLines == [|s.objects|]
            && b.thisLine == Some(|s.objects|) && Dragging(b)
  {
  }

  /** A drag move extends exactly the stroke in progress. */
  lemma DragMove(b: Sketch, q: Point)
    requires Valid(b) && Dragging(b)
    ensures var c := MouseMove(b, q);
            && c.objects == b.objects[b.thisLine.value := Drag(b.objects[b.thisLine.value], q)]
            && c.lines == b.lines && c.redoLines == b.redoLines
  {
  }

  /** Press, undo, then move: the undone stroke still grows. */
  lemma PressUndoMove(s: Sketch, p: Point, q: Point)
    requires Valid(s) && s.tools.mode == Drawing
    ensures var c := MouseMove(Undo(MouseDown(s, p)), q);
            && c.objects == s.objects + [Line([p, q], s.tools.color, s.tools.width)]
            && c.lines == s.lines && c.redoLines == [|s.objects|]
  {
    var id := |s.objects|;
    var b := Undo(MouseDown(s, p));
    PressThenUndo(s, p);
    DragMove(b, q);
    var line := Line([p, q], s.tools.color, s.tools.width);
    assert Drag(b.objects[id], q) == line by {
      assert [p] + [q] == [p, q];
    }
    assert (s.objects + [Line([p], s.tools.color, s.tools.width)])[id := line] == s.objects + [line];
  }

  /**
   * The stroke in progress is tracked by identity: press, undo, move, redo leaves the
   * stroke committed again with the moved-to point added while it sat on the redo stack.
   */
  lemma LiveStrokeFollowsUndo(s: Sketch, p: Point, q: Point)
    requires Valid(s) && s.tools.mode == Drawing
    ensures var t := Redo(MouseMove(Undo(MouseDown(s, p)), q));
            Committed(t) == Committed(s) + [Line([p, q], s.tools.color, s.tools.width)]
  {
    var c := MouseMove(Undo(MouseDown(s, p)), q);
    PressUndoMove(s, p, q);
    RedoMovesItem(c);
    assert Committed(c) == Committed(s) by {
      StacksAllocated(s);
      assert c.objects[..|s.objects|] == s.objects;
      ResolveKept(s.objects, c.objects, s.lines);
    }
  }

  /** Once released, a stroke is final: moves no longer change any object. */
  lemma ReleasedStrokeIsFinal(s: Sketch, p: Point)
    requires Valid(s)
    ensures MouseMove(MouseUp(s), p).objects == s.objects
  {
  }

  /**
   * The hover preview is faithful: it draws exactly what a press at the cursor then
   * commits.
   */
  lemma PreviewMatchesPress(s: Sketch)
    requires Valid(s) && s.hovering && PendingItem(s).Some?
    ensures var t := MouseDown(s, Point(s.cursor.x, s.cursor.y));
            && Preview(s) == Display(PendingItem(s).value)
            && Committed(t) == Committed(s) + [PendingItem(s).value]
  {
  }

  /** Entering then leaving the canvas gives back the state as it was before entering. */
  lemma EnterThenLeave(s: Sketch)
    requires Valid(s) && !s.hovering
    ensures MouseLeave(MouseEnter(s)) == s
  {
  }

  /** The colour and width chosen with the tools are those of the next stroke. */
  lemma BrushSettingsReachPress(s: Sketch, c: Color, w: int, p: Point)
    requires Valid(s)
    ensures var t := SetBrushWidth(SetColor(SelectDraw(s), c), w);
            Committed(MouseDown(t, p)) == Committed(s) + [Line([p], c, w)]
  {
  }

  /** The glyph and size chosen with the tools are those of the next sticker placed. */
  lemma StickerSettingsReachPress(s: Sketch, glyph: string, size: int, p: Point)
    requires Valid(s) && glyph != ""
    ensures var t := SetStickerSize(ActivateStickerTool(s, glyph), size);
            Committed(MouseDown(t, p)) == Committed(s) + [Sticker(p, glyph, size)]
  {
  }
}

=== FILE: options.dfy ===
/** A nullable value: the model's stand-in for the `T | null` fields of the sketchpad. */
module Options {

  datatype Option<+T> = None | Some(value: T)

  /**
   * JavaScript truthiness of a `string | null`: null and the empty string are falsy,
   * every other string is truthy. The sketchpad tests `currentSticker` and the export
   * background this way.
   */
  predicate Truthy(o: Option<string>)
  {
    o.Some? && o.value != ""
  }
}

=== FILE: palette.dfy ===
/**
 * The sticker palette and the custom-sticker prompt: user input is trimmed the way
 * JavaScript's `String.prototype.trim` does it, and null, empty or blank input adds
 * nothing.
 */
module Palette {
  import opened Options

  /** The palette the page starts with: loudly crying face, red heart, sparkles. */
  const InitialStickers: seq<string> := ["\U{1F62D}", "\U{2764}\U{FE0F}", "\U{2728}"]

  /**
   * The characters `trim` removes: the ECMAScript WhiteSpace set (tab, vertical tab,
   * form feed, the byte-order mark and every space separator of category Zs) and the
   * LineTerminator set (line feed, carriage return, line and paragraph separator).
   */
  const JsSpaces: set<char> := {
    '\t', '\U{000B}', '\U{000C}', ' ', '\U{00A0}', '\U{FEFF}',
    '\n', '\r', '\U{2028}', '\U{2029}',
    '\U{1680}', '\U{2000}', '\U{2001}', '\U{2002}', '\U{2003}', '\U{2004}', '\U{2005}',
    '\U{2006}', '\U{2007}', '\U{2008}', '\U{2009}', '\U{200A}',
    '\U{202F}', '\U{205F}', '\U{3000}'
  }

  predicate IsJsSpace(c: char)
  {
    c in JsSpaces
  }

  predicate AllSpace(s: string)
  {
    forall i :: 0 <= i < |s| ==> IsJsSpace(s[i])
  }

  /** Drop leading whitespace. */
  function TrimStart(s: string): (r: string)
    ensures |r| <= |s| && r == s[|s| - |r|..]
    ensures AllSpace(s[..|s| - |r|])
    ensures r == [] || !IsJsSpace(r[0])
  {
    if |s| > 0 && IsJsSpace(s[0]) then
      var t := TrimStart(s[1..]);
      var dropped := s[1..][..|s| - 1 - |t|];
      assert s[..|s| - |t|] == [s[0]] + dropped;
      AllSpaceConcat([s[0]], dropped);
      t
    else
      s
  }

  /** Drop trailing whitespace. */
  function TrimEnd(s: string): (r: string)
    ensures |r| <= |s| && r == s[..|r|]
    ensures AllSpace(s[|r|..])
    ensures r == [] || !IsJsSpace(r[|r| - 1])
  {
    if |s| > 0 && IsJsSpace(s[|s| - 1]) then
      var t := TrimEnd(s[..|s| - 1]);
      var dropped := s[..|s| - 1][|t|..];
      assert s[|t|..] == dropped + [s[|s| - 1]];
      AllSpaceConcat(dropped, [s[|s| - 1]]);
      t
    else
      s
  }

  /** `r` is `s` with a whitespace-only prefix and a whitespace-only suffix removed. */
  predicate IsTrimOf(r: string, s: string)
  {
    exists i :: 0 <= i <= |s| - |r| && s[i..i + |r|] == r
                && AllSpace(s[..i]) && AllSpace(s[i + |r|..])
  }

  /** `String.prototype.trim`. */
  function Trim(s: string): (r: string)
    ensures IsTrimOf(r, s)
    ensures r == [] || (!IsJsSpace(r[0]) && !IsJsSpace(r[|r| - 1]))
    ensures r == [] <==> AllSpace(s)
  {
    var a := TrimStart(s);
    var r := TrimEnd(a);
    TrimSplits(s, a, r);
    r
  }

  lemma AllSpaceConcat(a: string, b: string)
    ensures AllSpace(a + b) <==> AllSpace(a) && AllSpace(b)
  {
    var ab := a + b;
    if AllSpace(ab) {
      forall k | 0 <= k < |a| ensures IsJsSpace(a[k]) {
        assert a[k] == ab[k];
      }
      forall k | 0 <= k < |b| ensures IsJsSpace(b[k]) {
        assert b[k] == ab[|a| + k];
      }
    }
    if AllSpace(a) && AllSpace(b) {
      forall k | 0 <= k < |ab| ensures IsJsSpace(ab[k]) {
        if k < |a| { assert ab[k] == a[k]; } else { assert ab[k] == b[k - |a|]; }
      }
    }
  }

  lemma TrimSplits(s: string, a: string, r: string)
    requires |a| <= |s| && a == s[|s| - |a|..] && AllSpace(s[..|s| - |a|])
    requires a == [] || !IsJsSpace(a[0])
    requires |r| <= |a| && r == a[..|r|] && AllSpace(a[|r|..])
    ensures IsTrimOf(r, s)
    ensures r == [] <==> AllSpace(s)
  {
    var i := |s| - |a|;
    var tail := a[|r|..];
    assert s[i..i + |r|] == r;
    assert s[i + |r|..] == tail;
    assert AllSpace(s[..i]) && AllSpace(tail);
    assert 0 <= i <= |s| - |r| && s[i..i + |r|] == r && AllSpace(s[..i]) && AllSpace(s[i + |r|..]);
    if r == [] {
      assert s == s[..i] + tail;
      AllSpaceConcat(s[..i], tail);
    } else {
      assert s[i] == r[0];
    }
  }

  /** Trimming an already trimmed string changes nothing. */
  lemma TrimIdempotent(s: string)
    ensures Trim(Trim(s)) == Trim(s)
  {
    var r := Trim(s);
    assert TrimStart(r) == r;
    assert TrimEnd(r) == r;
  }

  /**
   * The custom-sticker button: `input` is what the prompt returned (None when it was
   * cancelled). Null, empty and whitespace-only input leave the palette as it is;
   * anything else appends its trimmed form.
   */
  function AddCustomSticker(palette: seq<string>, input: Option<string>): (r: seq<string>)
    ensures input.None? || AllSpace(input.value) ==> r == palette
    ensures input.Some? && !AllSpace(input.value) ==>
              r == palette + [Trim(input.value)] && Trim(input.value) != []
  {
    if !Truthy(input) || Trim(input.value) == "" then palette
    else palette + [Trim(input.value)]
  }

  /** Every palette entry is a non-empty string, so selecting any entry is truthy. */
  predicate WellFormed(palette: seq<string>)
  {
    forall k :: 0 <= k < |palette| ==> palette[k] != []
  }

  lemma InitialWellFormed()
    ensures WellFormed(InitialStickers)
  {
  }

  /** The prompt never adds an empty entry. */
  lemma AddCustomStickerKeepsWellFormed(palette: seq<string>, input: Option<string>)
    requires WellFormed(palette)
    ensures WellFormed(AddCustomSticker(palette, input))
  {
  }
}

=== FILE: readback.dfy ===
/**
 * Reading a render back: `Recover` turns a sequence of canvas operations into the items
 * it depicts. It is the independent partner of `Display`: every visible item is
 * recovered exactly from what it draws, so a render shows precisely the items it was
 * asked to show, in the same order.
 */
module Readback {
  import opened Renderables
  import opened Seqs

  /** The leading run of `lineTo` targets, and what follows it. */
  function TakeLineTos(ops: seq<DrawOp>): (r: (seq<Point>, seq<DrawOp>))
    ensures |r.1| <= |ops|
    ensures |r.0| + |r.1| == |ops|
  {
    if |ops| > 0 && ops[0].LineTo? then
      var (pts, rest) := TakeLineTos(ops[1..]);
      ([ops[0].to] + pts, rest)
    else
      ([], ops)
  }

  /**
   * Read one step of a render from its first operation: the item it starts, if any,
   * and the operations left over. A filled circle whose radius is half an integer reads
   * as a one-point line of twice the radius (any other circle is not one a dot draws).
   * A begun path with a move to the first `lineTo` target, a run of `lineTo`s and a
   * stroke reads as a line through the `lineTo` targets (a path that starts anywhere
   * else is not one a line draws). A text reads as a sticker. Anything else (clearing,
   * background fill, scaling, stray path pieces) depicts nothing and is skipped.
   */
  function ReadItem(ops: seq<DrawOp>): (r: (seq<Renderable>, seq<DrawOp>))
    requires |ops| > 0
    ensures |r.0| <= 1 && |r.1| < |ops|
  {
    match ops[0]
    case FillCircle(c, radius, color) =>
      if 2.0 * radius == (2.0 * radius).Floor as real then
        ([Line([c], color, (2.0 * radius).Floor)], ops[1..])
      else ([], ops[1..])
    case FillText(text, at, size) => ([Sticker(at, text, size)], ops[1..])
    case BeginPath =>
      if |ops| >= 2 && ops[1].MoveTo? then
        var (pts, rest) := TakeLineTos(ops[2..]);
        if |pts| > 0 && ops[1].to == pts[0] && |rest| > 0 && rest[0].Stroke? then
          ([Line(pts, rest[0].color, rest[0].width)], rest[1..])
        else ([], ops[1..])
      else ([], ops[1..])
    case _ => ([], ops[1..])
  }

  /** The items a sequence of canvas operations depicts, read step by step. */
  function Recover(ops: seq<DrawOp>): seq<Renderable>
    decreases |ops|
  {
    if |ops| == 0 then [] else ReadItem(ops).0 + Recover(ReadItem(ops).1)
  }

  lemma {:induction false} TakeLineTosOfPath(pts: seq<Point>, tail: seq<DrawOp>)
    requires |tail| == 0 || !tail[0].LineTo?
    ensures TakeLineTos(LineTos(pts) + tail) == (pts, tail)
  {
    if |pts| == 0 {
      assert LineTos(pts) + tail == tail;
    } else {
      var ops := LineTos(pts) + tail;
      assert ops[1..] == LineTos(pts[1..]) + tail;
      TakeLineTosOfPath(pts[1..], tail);
      assert [pts[0]] + pts[1..] == pts;
    }
  }

  /** One visible item's operations read back as that item and nothing more. */
  lemma ReadItemDisplay(item: Renderable, rest: seq<DrawOp>)
    requires Visible(item)
    ensures |Display(item) + rest| > 0
    ensures ReadItem(Display(item) + rest) == ([item], rest)
  {
    if item.Line? && |item.points| >= 2 {
      ReadPolyline(item.points, item.color, item.width, rest);
    } else {
      var ops := Display(item) + rest;
      assert ops[1..] == rest;
      if item.Line? {
        assert 2.0 * (item.width as real / 2.0) == item.width as real;
        assert [item.points[0]] == item.points;
      }
    }
  }

  lemma ReadPolyline(pts: seq<Point>, c: Color, w: int, rest: seq<DrawOp>)
    requires |pts| >= 2
    ensures var ops := [BeginPath, MoveTo(pts[0])] + LineTos(pts) + [Stroke(c, w)] + rest;
            ReadItem(ops) == ([Line(pts, c, w)], rest)
  {
    var tail := [Stroke(c, w)] + rest;
    var body := LineTos(pts) + tail;
    ConcatRight([BeginPath, MoveTo(pts[0])], LineTos(pts), [Stroke(c, w)], rest);
    TakeLineTosOfPath(pts, tail);
    ReadPath(pts[0], body);
    assert tail[1..] == rest;
  }

  /**
   * A begun path with a move to the first `lineTo` target reads as a line through the
   * `lineTo`s when a stroke follows them.
   */
  lemma ReadPath(start: Point, body: seq<DrawOp>)
    requires var (pts, tail) := TakeLineTos(body);
             |pts| > 0 && pts[0] == start && |tail| > 0 && tail[0].Stroke?
    ensures var (pts, tail) := TakeLineTos(body);
            ReadItem([BeginPath, MoveTo(start)] + body)
              == ([Line(pts, tail[0].color, tail[0].width)], tail[1..])
  {
    var ops := [BeginPath, MoveTo(start)] + body;
    assert ops[2..] == body;
  }

  /** What one visible item draws reads back as that item, whatever follows. */
  lemma RecoverDisplay(item: Renderable, rest: seq<DrawOp>)
    requires Visible(item)
    ensures Recover(Display(item) + rest) == [item] + Recover(rest)
  {
    ReadItemDisplay(item, rest);
  }

  /**
   * What a sequence of visible items draws reads back as those items, in order: the
   * render neither drops, adds nor reorders anything.
   */
  lemma {:induction false} RecoverDisplayAll(items: seq<Renderable>, rest: seq<DrawOp>)
    requires AllVisible(items)
    ensures Recover(DisplayAll(items) + rest) == items + Recover(rest)
  {
    if |items| == 0 {
      assert DisplayAll(items) + rest == rest;
    } else {
      var later := DisplayAll(items[1..]) + rest;
      DisplayAllCons(items, rest);
      RecoverDisplay(items[0], later);
      RecoverDisplayAll(items[1..], rest);
      ConsTail(items, Recover(rest));
    }
  }

  lemma DisplayAllCons(items: seq<Renderable>, rest: seq<DrawOp>)
    requires |items| > 0
    ensures DisplayAll(items) + rest == Display(items[0]) + (DisplayAll(items[1..]) + rest)
  {
  }

  lemma ConsTail<T>(s: seq<T>, t: seq<T>)
    requires |s| > 0
    ensures [s[0]] + (s[1..] + t) == s + t
  {
    assert [s[0]] + s[1..] == s;
  }

  /** Operations that depict nothing can be dropped from the front of a render. */
  lemma RecoverSkips(op: DrawOp, ops: seq<DrawOp>)
    requires op.ClearRect? || op.FillRect? || op.Scale?
    ensures Recover([op] + ops) == Recover(ops)
  {
    assert ReadItem([op] + ops) == ([], ops);
  }

  /**
   * A path whose move is not to its first `lineTo` target is not what any line draws:
   * the two-point line from (0,0) to (10,10), drawn with its move at (10,10), reads back
   * as nothing rather than as that line.
   */
  lemma MisplacedStartIsNoLine()
    ensures var line := Line([Point(0, 0), Point(10, 10)], "red", 3);
            var ops := [BeginPath, MoveTo(Point(10, 10)), LineTo(Point(0, 0)),
                        LineTo(Point(10, 10)), Stroke("red", 3)];
            Recover(Display(line)) == [line] && Recover(ops) == []
  {
    var line := Line([Point(0, 0), Point(10, 10)], "red", 3);
    RecoverDisplay(line, []);
    assert Display(line) + [] == Display(line);
    var ops := [BeginPath, MoveTo(Point(10, 10)), LineTo(Point(0, 0)),
                LineTo(Point(10, 10)), Stroke("red", 3)];
    assert ops[2..][1..][1..] == [Stroke("red", 3)];
    assert ReadItem(ops) == ([], ops[1..]);
    assert ReadItem(ops[1..]) == ([], ops[2..]);
    assert ReadItem(ops[2..]) == ([], ops[3..]);
    assert ReadItem(ops[3..]) == ([], ops[4..]);
    assert ReadItem(ops[4..]) == ([], ops[5..]);
  }

  /**
   * A circle whose radius is not half a whole width is not what any dot draws: a radius
   * of 1.75 reads back as nothing, while the dot of width 3 reads back as that dot.
   */
  lemma OddRadiusIsNoDot()
    ensures var dot := Line([Point(0, 0)], "red", 3);
            Recover(Display(dot)) == [dot] && Recover([FillCircle(Point(0, 0), 1.75, "red")]) == []
  {
    var dot := Line([Point(0, 0)], "red", 3);
    RecoverDisplay(dot, []);
    assert Display(dot) + [] == Display(dot);
    assert (2.0 * 1.75).Floor == 3;
    assert ReadItem([FillCircle(Point(0, 0), 1.75, "red")]) == ([], []);
  }
}

=== FILE: renderables.dfy ===
/**
 * The two renderable kinds of the sketchpad, a freehand `Line` and a placed `Sticker`,
 * and what each of them draws. Drawing is abstracted to a sequence of canvas
 * operations (`DrawOp`), so a render is a pure value that can be compared and read back.
 */
module Renderables {

  /** A pointer position in canvas coordinates. */
  datatype Point = Point(x: int, y: int)

  /** A CSS colour string, as produced by the colour picker. */
  type Color = string

  /**
   * `Line` is an ordered, append-only point list drawn with one colour and width.
   * `Sticker` is a glyph drawn centred on `pos` with a font size; it never changes
   * after it is placed.
   */
  datatype Renderable =
    | Line(points: seq<Point>, color: Color, width: int)
    | Sticker(pos: Point, emoji: string, fontSize: int)

  /**
   * The canvas calls the sketchpad issues, with their style arguments folded in.
   * `FillCircle` is a full-turn arc filled with `color`; `Stroke` strokes the current
   * path with `color`, line width `width` and round caps; `FillText` draws `text`
   * centred (horizontally and vertically) on `at` in a `fontSize`-pixel serif font.
   */
  datatype DrawOp =
    | ClearRect(x: int, y: int, w: int, h: int)
    | FillRect(fill: Color, x: int, y: int, w: int, h: int)
    | Scale(factor: int)
    | FillCircle(center: Point, radius: real, color: Color)
    | BeginPath
    | MoveTo(to: Point)
    | LineTo(to: Point)
    | Stroke(color: Color, width: int)
    | FillText(text: string, at: Point, fontSize: int)

  /** `Line.drag`: the only mutator of a line appends one point and keeps the style. */
  function Drag(line: Renderable, p: Point): (r: Renderable)
    requires line.Line?
    ensures Extends(line, r)
    ensures |r.points| == |line.points| + 1 && r.points[|line.points|] == p
  {
    line.(points := line.points + [p])
  }

  /**
   * `later` is what `earlier` can become by zero or more drags: a line keeps its style
   * and every point it had, in place; a sticker stays exactly as it was.
   */
  predicate Extends(earlier: Renderable, later: Renderable)
  {
    match earlier
    case Line(pts, c, w) =>
      && later.Line? && later.color == c && later.width == w
      && |pts| <= |later.points| && later.points[..|pts|] == pts
    case Sticker(_, _, _) => later == earlier
  }

  lemma ExtendsReflexive(a: Renderable)
    ensures Extends(a, a)
  {
  }

  lemma ExtendsTransitive(a: Renderable, b: Renderable, c: Renderable)
    requires Extends(a, b) && Extends(b, c)
    ensures Extends(a, c)
  {
    if a.Line? {
      assert c.points[..|a.points|] == c.points[..|b.points|][..|a.points|];
    }
  }

  /** One `lineTo` per point, in order. */
  function LineTos(pts: seq<Point>): (ops: seq<DrawOp>)
    ensures |ops| == |pts|
    ensures forall i :: 0 <= i < |pts| ==> ops[i] == LineTo(pts[i])
  {
    if |pts| == 0 then [] else [LineTo(pts[0])] + LineTos(pts[1..])
  }

  /**
   * `Renderable.display`. A line with no points draws nothing and a line with one point
   * draws a filled dot of radius width/2. A longer line moves to its first point, adds a
   * `lineTo` for every point (the first one included, so it appears twice) and strokes.
   * A sticker draws its glyph.
   */
  function Display(item: Renderable): (ops: seq<DrawOp>)
    ensures item.Line? && |item.points| == 0 ==> ops == []
    ensures item.Line? && |item.points| == 1 ==>
              ops == [FillCircle(item.points[0], item.width as real / 2.0, item.color)]
    ensures item.Line? && |item.points| >= 2 ==>
              && |ops| == |item.points| + 3
              && ops[0] == BeginPath && ops[1] == MoveTo(item.points[0])
              && (forall i :: 0 <= i < |item.points| ==> ops[i + 2] == LineTo(item.points[i]))
              && ops[|ops| - 1] == Stroke(item.color, item.width)
    ensures item.Sticker? ==> ops == [FillText(item.emoji, item.pos, item.fontSize)]
  {
    match item
    case Line(pts, c, w) =>
      if |pts| == 0 then []
      else if |pts| == 1 then [FillCircle(pts[0], w as real / 2.0, c)]
      else [BeginPath, MoveTo(pts[0])] + LineTos(pts) + [Stroke(c, w)]
    case Sticker(pos, e, f) => [FillText(e, pos, f)]
  }

  /** Display every item in order, later items drawn over earlier ones. */
  function DisplayAll(items: seq<Renderable>): seq<DrawOp>
  {
    if |items| == 0 then [] else Display(items[0]) + DisplayAll(items[1..])
  }

  /** Displaying a concatenation is displaying each part in turn. */
  lemma {:induction false} DisplayAllAppend(a: seq<Renderable>, b: seq<Renderable>)
    ensures DisplayAll(a + b) == DisplayAll(a) + DisplayAll(b)
  {
    if |a| == 0 {
      assert a + b == b;
    } else {
      assert (a + b)[1..] == a[1..] + b;
      DisplayAllAppend(a[1..], b);
    }
  }

  /** An item that draws something: a sticker, or a line with at least one point. */
  predicate Visible(item: Renderable)
  {
    item.Line? ==> |item.points| > 0
  }

  predicate AllVisible(items: seq<Renderable>)
  {
    forall i :: 0 <= i < |items| ==> Visible(items[i])
  }

  /** Exactly the visible items draw something. */
  lemma DisplayNonEmptyIffVisible(item: Renderable)
    ensures Display(item) != [] <==> Visible(item)
  {
  }

  /**
   * A three-point line of width 3 strokes one connected path through exactly its
   * points, in order.
   */
  lemma ThreePointPolyline(c: Color)
    ensures Display(Line([Point(0, 0), Point(10, 0), Point(10, 10)], c, 3))
         == [BeginPath, MoveTo(Point(0, 0)),
             LineTo(Point(0, 0)), LineTo(Point(10, 0)), LineTo(Point(10, 10)),
             Stroke(c, 3)]
  {
  }
}

=== FILE: seqs.dfy ===
/** Small sequence helpers shared by the history proofs. */
module Seqs {

  /** The elements of `s` in the opposite order. */
  function Reverse<T>(s: seq<T>): (r: seq<T>)
    ensures |r| == |s|
    ensures forall i :: 0 <= i < |s| ==> r[i] == s[|s| - 1 - i]
  {
    if |s| == 0 then [] else [s[|s| - 1]] + Reverse(s[..|s| - 1])
  }

  /** Reversing a sequence with one more element at the end puts it first. */
  lemma ReverseSnoc<T>(s: seq<T>, x: T)
    ensures Reverse(s + [x]) == [x] + Reverse(s)
  {
    assert (s + [x])[..|s|] == s;
  }

  /** A prefix of a prefix is a prefix. */
  lemma PrefixOfPrefix<T>(s: seq<T>, j: nat, k: nat)
    requires k <= j <= |s|
    ensures s[..j][..k] == s[..k]
  {
  }

  /** Regrouping a four-part concatenation to the right. */
  lemma ConcatRight<T>(a: seq<T>, b: seq<T>, c: seq<T>, d: seq<T>)
    ensures a + b + c + d == a + (b + (c + d))
  {
  }

  /** Concatenation is associative. */
  lemma AppendAssoc<T>(a: seq<T>, b: seq<T>, c: seq<T>)
    ensures (a + b) + c == a + (b + c)
  {
  }
}

=== FILE: session.dfy ===
/**
 * A session on the page: every user action as one event, the handler each one runs,
 * and what holds after any sequence of them starting from the page as loaded.
 */
module Session {
  import opened Options
  import opened Renderables
  import opened Sketchpad
  import Palette

  /** Everything a user can do to the sketchpad that changes its state. */
  datatype Event =
    | Press(at: Point)                  // mousedown on the canvas
    | Move(to: Point)                   // mousemove on the canvas
    | Release                           // mouseup on the canvas
    | Enter                             // mouseenter
    | Leave                             // mouseleave
    | UndoClick
    | RedoClick
    | ClearClick
    | DrawClick
    | StickerClick(index: nat)          // the palette button at `index`
    | ColorInput(color: Color)
    | BrushInput(width: int)            // brush slider, already parsed
    | StickerSizeInput(size: int)       // sticker slider, already parsed
    | CustomStickerClick(answer: Option<string>)  // the "+" button and the prompt's answer

  /**
   * The tool state reachable from the page as loaded: every palette glyph is non-empty
   * and a selected glyph is one of the palette's.
   */
  predicate ToolsOk(t: Tools)
  {
    && Palette.WellFormed(t.stickers)
    && (t.currentSticker.Some? ==> t.currentSticker.value in t.stickers)
  }

  /**
   * Run the handler for one event. A palette button exists for each palette entry, so a
   * click on an index past the end of the palette does nothing.
   */
  function Step(s: Sketch, e: Event): (r: Sketch)
    requires Valid(s)
    ensures Valid(r)
    ensures ToolsOk(s.tools) ==> ToolsOk(r.tools)
    ensures r.objects == s.objects || e.Press? || e.Move?
    ensures e.Press? || e.UndoClick? || e.RedoClick? || e.ClearClick? ||
            (r.lines == s.lines && r.redoLines == s.redoLines)
  {
    match e
    case Press(p) => MouseDown(s, p)
    case Move(p) => MouseMove(s, p)
    case Release => MouseUp(s)
    case Enter => MouseEnter(s)
    case Leave => MouseLeave(s)
    case UndoClick => Undo(s)
    case RedoClick => Redo(s)
    case ClearClick => Clear(s)
    case DrawClick => SelectDraw(s)
    case StickerClick(i) =>
      if i < |s.tools.stickers| then ActivateStickerTool(s, s.tools.stickers[i]) else s
    case ColorInput(c) => SetColor(s, c)
    case BrushInput(w) => SetBrushWidth(s, w)
    case StickerSizeInput(n) => SetStickerSize(s, n)
    case CustomStickerClick(answer) => AddCustomSticker(s, answer)
  }

  /** Run the handlers for a sequence of events in order. */
  function Run(s: Sketch, evs: seq<Event>): (r: Sketch)
    requires Valid(s)
    ensures Valid(r)
    ensures ToolsOk(s.tools) ==> ToolsOk(r.tools)
    decreases |evs|
  {
    if |evs| == 0 then s else Run(Step(s, evs[0]), evs[1..])
  }

  /** Running two sequences of events is running their concatenation. */
  lemma {:induction false} RunAppend(s: Sketch, a: seq<Event>, b: seq<Event>)
    requires Valid(s)
    ensures Run(s, a + b) == Run(Run(s, a), b)
    decreases |a|
  {
    if |a| == 0 {
      assert a + b == b;
    } else {
      assert (a + b)[1..] == a[1..] + b;
      RunAppend(Step(s, a[0]), a[1..], b);
    }
  }

  lemma KeptGrown(before: seq<Renderable>, after: seq<Renderable>)
    requires Kept(before, after)
    ensures Grown(before, after)
  {
    forall i | 0 <= i < |before| ensures Extends(before[i], after[i]) {
      assert after[i] == after[..|before|][i];
      ExtendsReflexive(before[i]);
    }
  }

  lemma GrownTransitive(a: seq<Renderable>, b: seq<Renderable>, c: seq<Renderable>)
    requires Grown(a, b) && Grown(b, c)
    ensures Grown(a, c)
  {
    forall i | 0 <= i < |a| ensures Extends(a[i], c[i]) {
      ExtendsTransitive(a[i], b[i], c[i]);
    }
  }

  /**
   * No event changes a created object except by appending points to a line: a line keeps
   * its colour, width and earlier points, and a sticker never changes. Items can still
   * leave the stacks: clear drops the committed ones and a new press the undone ones.
   */
  lemma StepOnlyGrows(s: Sketch, e: Event)
    requires Valid(s)
    ensures Grown(s.objects, Step(s, e).objects)
  {
    match e
    case Press(p) => KeptGrown(s.objects, MouseDown(s, p).objects);
    case Move(p) => MouseMoveOnlyExtends(s, p);
    case _ => KeptGrown(s.objects, s.objects);
  }

  lemma {:induction false} RunOnlyGrows(s: Sketch, evs: seq<Event>)
    requires Valid(s)
    ensures Grown(s.objects, Run(s, evs).objects)
    decreases |evs|
  {
    if |evs| == 0 {
      KeptGrown(s.objects, s.objects);
    } else {
      var t := Step(s, evs[0]);
      StepOnlyGrows(s, evs[0]);
      RunOnlyGrows(t, evs[1..]);
      GrownTransitive(s.objects, t.objects, Run(t, evs[1..]).objects);
    }
  }

  /** The page as loaded satisfies the tool invariant, so every reachable state does. */
  lemma ReachableToolsOk(evs: seq<Event>)
    ensures ToolsOk(Run(Init(), evs).tools)
  {
    Palette.InitialWellFormed();
  }

  /**
   * In a reachable state, a press in Sticker mode with a glyph selected always places
   * that glyph: the "no glyph selected" branch is only taken when none was ever chosen.
   */
  lemma ReachableStickerPressCommits(evs: seq<Event>, p: Point)
    ensures var s := Run(Init(), evs);
            s.tools.mode == StickerTool && s.tools.currentSticker.Some? ==>
              Committed(MouseDown(s, p))
                == Committed(s) + [Sticker(p, s.tools.currentSticker.value, s.tools.stickerSize)]
  {
    ReachableToolsOk(evs);
  }

  /** Tool events leave the drawing and both stacks alone. */
  lemma ToolEventsKeepDrawing(s: Sketch, e: Event)
    requires Valid(s)
    requires e.DrawClick? || e.StickerClick? || e.ColorInput? || e.BrushInput? ||
             e.StickerSizeInput? || e.CustomStickerClick?
    ensures var r := Step(s, e);
            r.objects == s.objects && r.lines == s.lines && r.redoLines == s.redoLines
            && r.thisLine == s.thisLine && r.cursor == s.cursor && r.hovering == s.hovering
  {
  }
}

=== FILE: sketchpad.dfy ===
/**
 * The sketchpad session: the committed stack `lines`, the undone stack `redoLines`, the
 * in-progress stroke `thisLine`, the cursor and the tool settings, with one pure
 * transition per pointer or button event, and the two renders (`Redraw` for the
 * on-screen canvas, `Export` for the 4x image).
 *
 * Lines and stickers are objects: the page pushes the very `Line` it is still extending
 * into `lines`, and undo and redo move that same object between the stacks. The model
 * keeps that aliasing by numbering objects in creation order, storing them in
 * `objects` and keeping ids, never copies, in `lines`, `redoLines` and `thisLine`.
 */
module Sketchpad {
  import opened Options
  import opened Renderables
  import opened Seqs
  import Readback
  import Palette
  import FillStyle

  /** The identity of a created `Line` or `Sticker` object: its creation index. */
  type Id = nat

  datatype ToolMode = Drawing | StickerTool

  /** The shared cursor record: button held, and last recorded position. */
  datatype Cursor = Cursor(active: bool, x: int, y: int)

  /** The tool settings the toolbar controls and the palette of sticker glyphs. */
  datatype Tools = Tools(
    mode: ToolMode,
    currentSticker: Option<string>,
    stickerSize: int,
    color: Color,
    width: int,
    stickers: seq<string>)

  const CanvasSize: int := 256
  const ExportSize: int := 1024
  const ExportScale: int := 4

  datatype Sketch = Sketch(
    objects: seq<Renderable>,  // every object created so far, indexed by id
    lines: seq<Id>,            // committed items, oldest first
    redoLines: seq<Id>,        // undone items, most recently undone last
    thisLine: Option<Id>,      // the stroke mouse moves extend, if any
    cursor: Cursor,
    hovering: bool,            // pointer inside the canvas
    tools: Tools)

  /** No id occurs twice. */
  predicate Distinct(ids: seq<Id>)
  {
    forall id :: id in ids ==> multiset(ids)[id] == 1
  }

  /** Every id names a created object. */
  predicate Allocated(ids: seq<Id>, count: nat)
  {
    forall i :: 0 <= i < |ids| ==> ids[i] < count
  }

  /**
   * The state is well formed: every referenced id names an object, `thisLine` names a
   * line, every object draws something, and no object sits twice in the two stacks
   * together.
   */
  predicate Valid(s: Sketch)
  {
    && AllVisible(s.objects)
    && Allocated(s.lines + s.redoLines, |s.objects|)
    && (s.thisLine.Some? ==> s.thisLine.value < |s.objects| && s.objects[s.thisLine.value].Line?)
    && Distinct(s.lines + s.redoLines)
  }

  /** The objects the ids refer to, in order. */
  function Resolve(objects: seq<Renderable>, ids: seq<Id>): (r: seq<Renderable>)
    requires Allocated(ids, |objects|)
    ensures |r| == |ids|
    ensures forall i :: 0 <= i < |ids| ==> r[i] == objects[ids[i]]
  {
    if |ids| == 0 then [] else [objects[ids[0]]] + Resolve(objects, ids[1..])
  }

  lemma AllocatedSplit(a: seq<Id>, b: seq<Id>, count: nat)
    ensures Allocated(a + b, count) <==> Allocated(a, count) && Allocated(b, count)
  {
    var ab := a + b;
    if Allocated(ab, count) {
      forall i | 0 <= i < |a| ensures a[i] < count { assert a[i] == ab[i]; }
      forall i | 0 <= i < |b| ensures b[i] < count { assert b[i] == ab[|a| + i]; }
    }
    if Allocated(a, count) && Allocated(b, count) {
      forall i | 0 <= i < |ab| ensures ab[i] < count {
        if i < |a| { assert ab[i] == a[i]; } else { assert ab[i] == b[i - |a|]; }
      }
    }
  }

  /** Both stacks of a well-formed state refer to created objects only. */
  lemma StacksAllocated(s: Sketch)
    requires Valid(s)
    ensures Allocated(s.lines, |s.objects|) && Allocated(s.redoLines, |s.objects|)
  {
    AllocatedSplit(s.lines, s.redoLines, |s.objects|);
  }

  /** The committed items as drawn: what the `lines` array holds. */
  function Committed(s: Sketch): (r: seq<Renderable>)
    requires Valid(s)
    ensures |r| == |s.lines| && AllVisible(r)
  {
    AllocatedSplit(s.lines, s.redoLines, |s.objects|);
    var r := Resolve(s.objects, s.lines);
    assert forall i :: 0 <= i < |r| ==> Visible(s.objects[s.lines[i]]);
    r
  }

  /** The undone items, most recently undone last. */
  function Undone(s: Sketch): (r: seq<Renderable>)
    requires Valid(s)
    ensures |r| == |s.redoLines|
  {
    AllocatedSplit(s.lines, s.redoLines, |s.objects|);
    Resolve(s.objects, s.redoLines)
  }

  /** Every object of `before` is still there, unchanged, and maybe more were created. */
  predicate Kept(before: seq<Renderable>, after: seq<Renderable>)
  {
    |before| <= |after| && after[..|before|] == before
  }

  /** Every object of `before` is still there, possibly extended by drags. */
  predicate Grown(before: seq<Renderable>, after: seq<Renderable>)
  {
    |before| <= |after| && forall i :: 0 <= i < |before| ==> Extends(before[i], after[i])
  }

  /** The state the page starts in. */
  function Init(): (s: Sketch)
    ensures Valid(s) && Committed(s) == [] && s.redoLines == [] && s.thisLine.None?
    ensures !s.cursor.active && !s.hovering && s.tools.mode == Drawing
    ensures s.tools.currentSticker.None? && Palette.WellFormed(s.tools.stickers)
  {
    Sketch([], [], [], None, Cursor(false, 0, 0), false,
           Tools(Drawing, None, 20, "#000000ff", 3, Palette.InitialStickers))
  }

  lemma ResolveKept(before: seq<Renderable>, after: seq<Renderable>, ids: seq<Id>)
    requires Allocated(ids, |before|) && Kept(before, after)
    ensures Allocated(ids, |after|)
    ensures Resolve(after, ids) == Resolve(before, ids)
  {
    var a := Resolve(after, ids);
    var b := Resolve(before, ids);
    forall i | 0 <= i < |ids| ensures a[i] == b[i] {
      assert after[ids[i]] == after[..|before|][ids[i]];
    }
  }

  lemma ResolvePrefix(objects: seq<Renderable>, ids: seq<Id>, k: nat)
    requires Allocated(ids, |objects|) && k <= |ids|
    ensures Allocated(ids[..k], |objects|)
    ensures Resolve(objects, ids[..k]) == Resolve(objects, ids)[..k]
  {
    assert ids == ids[..k] + ids[k..];
    AllocatedSplit(ids[..k], ids[k..], |objects|);
  }

  lemma ResolveAppend(objects: seq<Renderable>, a: seq<Id>, b: seq<Id>)
    requires Allocated(a, |objects|) && Allocated(b, |objects|)
    ensures Allocated(a + b, |objects|)
    ensures Resolve(objects, a + b) == Resolve(objects, a) + Resolve(objects, b)
  {
    AllocatedSplit(a, b, |objects|);
  }

  lemma ResolveReversedSuffix(objects: seq<Renderable>, ids: seq<Id>, k: nat)
    requires Allocated(ids, |objects|) && k <= |ids|
    ensures Allocated(Reverse(ids[k..]), |objects|)
    ensures Resolve(objects, Reverse(ids[k..])) == Reverse(Resolve(objects, ids)[k..])
  {
    ResolveSuffix(objects, ids, k);
    ResolveReverse(objects, ids[k..]);
  }

  lemma ResolveSuffix(objects: seq<Renderable>, ids: seq<Id>, k: nat)
    requires Allocated(ids, |objects|) && k <= |ids|
    ensures Allocated(ids[k..], |objects|)
    ensures Resolve(objects, ids[k..]) == Resolve(objects, ids)[k..]
  {
    var tail := ids[k..];
    assert Allocated(tail, |objects|) by {
      forall i | 0 <= i < |tail| ensures tail[i] < |objects| { assert tail[i] == ids[k + i]; }
    }
  }

  lemma {:induction false} ResolveReverse(objects: seq<Renderable>, ids: seq<Id>)
    requires Allocated(ids, |objects|)
    ensures Allocated(Reverse(ids), |objects|)
    ensures Resolve(objects, Reverse(ids)) == Reverse(Resolve(objects, ids))
    decreases |ids|
  {
    if |ids| > 0 {
      var init := ids[..|ids| - 1];
      var last := ids[|ids| - 1];
      assert ids == init + [last];
      AllocatedSplit(init, [last], |objects|);
      ResolveReverse(objects, init);
      ReverseSnoc(init, last);
      ResolveAppend(objects, [last], Reverse(init));
      ResolveAppend(objects, init, [last]);
      assert Resolve(objects, [last]) == [objects[last]];
      ReverseSnoc(Resolve(objects, init), objects[last]);
    }
  }

  /** A sub-collection of distinct ids is distinct. */
  lemma DistinctSub(a: seq<Id>, b: seq<Id>)
    requires Distinct(b) && multiset(a) <= multiset(b)
    ensures Distinct(a)
  {
    forall id | id in a
      ensures multiset(a)[id] == 1
    {
      assert id in multiset(a);
      assert id in multiset(b);
    }
  }

  /** Appending an id not yet present keeps ids distinct. */
  lemma DistinctSnoc(ids: seq<Id>, id: Id)
    requires Distinct(ids) && id !in ids
    ensures Distinct(ids + [id])
  {
    var m := multiset(ids + [id]);
    assert m == multiset(ids) + multiset{id};
    forall x | x in ids + [id]
      ensures m[x] == 1
    {
      if x == id {
        assert multiset(ids)[id] == 0;
      } else {
        assert x in ids;
      }
    }
  }

  /**
   * Moving or dropping ids between the stacks, with the objects and the stroke in
   * progress untouched, keeps the state well formed.
   */
  lemma RearrangeKeepsValid(s: Sketch, r: Sketch)
    requires Valid(s)
    requires r.objects == s.objects && r.thisLine == s.thisLine
    requires multiset(r.lines + r.redoLines) <= multiset(s.lines + s.redoLines)
    ensures Valid(r)
  {
    DistinctSub(r.lines + r.redoLines, s.lines + s.redoLines);
    var ids := r.lines + r.redoLines;
    var old_ids := s.lines + s.redoLines;
    forall i | 0 <= i < |ids|
      ensures ids[i] < |s.objects|
    {
      assert ids[i] in multiset(ids);
      assert ids[i] in old_ids;
      var j :| 0 <= j < |old_ids| && old_ids[j] == ids[i];
    }
  }

  /**
   * Push a newly created object onto `lines` and empty the redo stack: the common part
   * of both kinds of press.
   */
  function Commit(s: Sketch, item: Renderable): (r: Sketch)
    requires Valid(s) && Visible(item)
    ensures Valid(r) && Kept(s.objects, r.objects)
    ensures r.objects == s.objects + [item]
    ensures r.lines == s.lines + [|s.objects|] && r.redoLines == []
    ensures Committed(r) == Committed(s) + [item]
    ensures r.thisLine == s.thisLine && r.cursor == s.cursor
    ensures r.hovering == s.hovering && r.tools == s.tools
  {
    var id := |s.objects|;
    var r := s.(objects := s.objects + [item], lines := s.lines + [id], redoLines := []);
    AllocatedSplit(s.lines, s.redoLines, |s.objects|);
    DistinctSub(s.lines, s.lines + s.redoLines);
    assert id !in s.lines;
    DistinctSnoc(s.lines, id);
    assert r.lines + r.redoLines == s.lines + [id];
    assert AllVisible(r.objects) by {
      forall i | 0 <= i < |r.objects| ensures Visible(r.objects[i]) {
        if i < id { assert r.objects[i] == s.objects[i]; }
      }
    }
    ResolveKept(s.objects, r.objects, s.lines);
    assert Resolve(r.objects, r.lines) == Resolve(r.objects, s.lines) + [item];
    r
  }

  // ---------------------------------------------------------------------------
  // Pointer events

  /**
   * `mousedown`: the button is held at `p`. In Drawing mode a new one-point line in the
   * current colour and width is committed and becomes the stroke in progress; in Sticker
   * mode with a glyph selected a sticker is committed at `p`. Either commit empties the
   * redo stack. With no glyph selected neither stack changes.
   */
  function MouseDown(s: Sketch, p: Point): (r: Sketch)
    requires Valid(s)
    ensures Valid(r) && Kept(s.objects, r.objects)
    ensures r.cursor == Cursor(true, p.x, p.y) && r.hovering == s.hovering && r.tools == s.tools
    ensures s.tools.mode == Drawing ==>
              && r.thisLine == Some(|s.objects|)
              && r.objects == s.objects + [Line([p], s.tools.color, s.tools.width)]
              && r.lines == s.lines + [|s.objects|] && r.redoLines == []
              && Committed(r) == Committed(s) + [Line([p], s.tools.color, s.tools.width)]
    ensures s.tools.mode == StickerTool && Truthy(s.tools.currentSticker) ==>
              var glyph := Sticker(p, s.tools.currentSticker.value, s.tools.stickerSize);
              && r.objects == s.objects + [glyph]
              && r.lines == s.lines + [|s.objects|] && r.redoLines == []
              && Committed(r) == Committed(s) + [glyph]
              && r.thisLine == s.thisLine
    ensures s.tools.mode == StickerTool && !Truthy(s.tools.currentSticker) ==>
              && r.objects == s.objects && r.lines == s.lines
              && r.redoLines == s.redoLines && r.thisLine == s.thisLine
  {
    var pressed := s.(cursor := Cursor(true, p.x, p.y));
    var t := s.tools;
    if t.mode == Drawing then
      var line := Drag(Line([], t.color, t.width), p);
      Commit(pressed, line).(thisLine := Some(|s.objects|))
    else if Truthy(t.currentSticker) then
      Commit(pressed, Sticker(p, t.currentSticker.value, t.stickerSize))
    else
      pressed
  }

  /** A mouse move extends the in-progress stroke. */
  predicate Dragging(s: Sketch)
  {
    s.tools.mode == Drawing && s.cursor.active && s.thisLine.Some?
  }

  /**
   * `mousemove` at `p`: while dragging in Drawing mode the in-progress stroke gets `p`
   * appended, wherever that stroke now sits (committed, undone or cleared away). No
   * other object changes and no point is ever removed or reordered. The recorded
   * cursor position follows `p` when dragging or hovering.
   */
  function MouseMove(s: Sketch, p: Point): (r: Sketch)
    requires Valid(s)
    ensures Valid(r)
    ensures r.lines == s.lines && r.redoLines == s.redoLines && r.thisLine == s.thisLine
    ensures r.cursor.active == s.cursor.active && r.hovering == s.hovering && r.tools == s.tools
    ensures |r.objects| == |s.objects|
    ensures Dragging(s) ==>
              var id := s.thisLine.value;
              && r.objects[id] == Drag(s.objects[id], p)
              && r.objects[id].points == s.objects[id].points + [p]
              && (forall i :: 0 <= i < |s.objects| && i != id ==> r.objects[i] == s.objects[i])
    ensures !Dragging(s) ==> r.objects == s.objects
    ensures Dragging(s) || s.hovering ==> r.cursor.x == p.x && r.cursor.y == p.y
    ensures !Dragging(s) && !s.hovering ==> r.cursor == s.cursor
  {
    var moved :=
      if Dragging(s) then
        var id := s.thisLine.value;
        s.(cursor := s.cursor.(x := p.x, y := p.y), objects := s.objects[id := Drag(s.objects[id], p)])
      else s;
    if moved.hovering then moved.(cursor := moved.cursor.(x := p.x, y := p.y)) else moved
  }

  /**
   * Mouse moves only ever extend objects: every line keeps its style and its points,
   * and every sticker stays as it was.
   */
  lemma MouseMoveOnlyExtends(s: Sketch, p: Point)
    requires Valid(s)
    ensures Grown(s.objects, MouseMove(s, p).objects)
  {
    var r := MouseMove(s, p);
    forall i | 0 <= i < |s.objects|
      ensures Extends(s.objects[i], r.objects[i])
    {
      if Dragging(s) && i == s.thisLine.value {
        assert r.objects[i] == Drag(s.objects[i], p);
      } else {
        ExtendsReflexive(s.objects[i]);
      }
    }
  }

  /** `mouseup`: the button is released and the stroke in progress is finished. */
  function MouseUp(s: Sketch): (r: Sketch)
    requires Valid(s)
    ensures Valid(r)
    ensures !r.cursor.active && r.thisLine.None?
    ensures r.objects == s.objects && r.lines == s.lines && r.redoLines == s.redoLines
    ensures r.cursor.x == s.cursor.x && r.cursor.y == s.cursor.y
    ensures r.hovering == s.hovering && r.tools == s.tools
  {
    s.(cursor := s.cursor.(active := false), thisLine := None)
  }

  /** `mouseenter`: the pointer is over the canvas, so the preview shows. */
  function MouseEnter(s: Sketch): (r: Sketch)
    requires Valid(s)
    ensures Valid(r) && r.hovering && r.(hovering := s.hovering) == s
  {
    s.(hovering := true)
  }

  /** `mouseleave`: the pointer has left the canvas. The button state is left alone. */
  function MouseLeave(s: Sketch): (r: Sketch)
    requires Valid(s)
    ensures Valid(r) && !r.hovering && r.(hovering := s.hovering) == s
  {
    s.(hovering := false)
  }

  // ---------------------------------------------------------------------------
  // History buttons

  /** The linear history: committed items, then the undone ones in redo order. */
  function Timeline(s: Sketch): seq<Id>
  {
    s.lines + Reverse(s.redoLines)
  }

  /** Moving the top of one stack to the other keeps the multiset of ids. */
  lemma MoveTopSameIds(done: seq<Id>, undone: seq<Id>, top: Id)
    ensures multiset((done + [top]) + undone) == multiset(done + (undone + [top]))
  {
  }

  /**
   * Undo: the newest committed item moves to the top of the redo stack; with nothing
   * committed nothing changes. Only the two stacks ever change.
   */
  function Undo(s: Sketch): (r: Sketch)
    requires Valid(s)
    ensures Valid(r)
    ensures r.objects == s.objects && r.thisLine == s.thisLine && r.cursor == s.cursor
    ensures r.hovering == s.hovering && r.tools == s.tools
    ensures |s.lines| == 0 ==> r == s
    ensures |s.lines| > 0 ==>
              && r.lines == s.lines[..|s.lines| - 1]
              && r.redoLines == s.redoLines + [s.lines[|s.lines| - 1]]
  {
    if |s.lines| > 0 then
      var n := |s.lines|;
      var top := s.lines[n - 1];
      var r := s.(lines := s.lines[..n - 1], redoLines := s.redoLines + [top]);
      assert s.lines == r.lines + [top];
      MoveTopSameIds(r.lines, s.redoLines, top);
      RearrangeKeepsValid(s, r);
      r
    else s
  }

  /**
   * Redo: the most recently undone item moves back to the end of `lines`; with nothing
   * undone nothing changes. Only the two stacks ever change.
   */
  function Redo(s: Sketch): (r: Sketch)
    requires Valid(s)
    ensures Valid(r)
    ensures r.objects == s.objects && r.thisLine == s.thisLine && r.cursor == s.cursor
    ensures r.hovering == s.hovering && r.tools == s.tools
    ensures |s.redoLines| == 0 ==> r == s
    ensures |s.redoLines| > 0 ==>
              && r.redoLines == s.redoLines[..|s.redoLines| - 1]
              && r.lines == s.lines + [s.redoLines[|s.redoLines| - 1]]
  {
    if |s.redoLines| > 0 then
      var n := |s.redoLines|;
      var top := s.redoLines[n - 1];
      var r := s.(lines := s.lines + [top], redoLines := s.redoLines[..n - 1]);
      assert s.redoLines == r.redoLines + [top];
      MoveTopSameIds(s.lines, r.redoLines, top);
      RearrangeKeepsValid(s, r);
      r
    else s
  }

  lemma ResolveSnoc(objects: seq<Renderable>, ids: seq<Id>, id: Id)
    requires Allocated(ids, |objects|) && id < |objects|
    ensures Allocated(ids + [id], |objects|)
    ensures Resolve(objects, ids + [id]) == Resolve(objects, ids) + [objects[id]]
  {
    AllocatedSplit(ids, [id], |objects|);
  }

  /** In terms of items, undo moves the newest committed item onto the undone ones. */
  lemma UndoMovesItem(s: Sketch)
    requires Valid(s) && |s.lines| > 0
    ensures Committed(Undo(s)) == Committed(s)[..|s.lines| - 1]
    ensures Undone(Undo(s)) == Undone(s) + [Committed(s)[|s.lines| - 1]]
  {
    var r := Undo(s);
    StacksAllocated(s);
    var top := s.lines[|s.lines| - 1];
    assert s.lines == r.lines + [top];
    ResolveSnoc(s.objects, r.lines, top);
    ResolveSnoc(s.objects, s.redoLines, top);
  }

  /** In terms of items, redo moves the most recently undone item back on top. */
  lemma RedoMovesItem(s: Sketch)
    requires Valid(s) && |s.redoLines| > 0
    ensures Committed(Redo(s)) == Committed(s) + [Undone(s)[|s.redoLines| - 1]]
    ensures Undone(Redo(s)) == Undone(s)[..|s.redoLines| - 1]
  {
    var r := Redo(s);
    StacksAllocated(s);
    var top := s.redoLines[|s.redoLines| - 1];
    assert s.redoLines == r.redoLines + [top];
    ResolveSnoc(s.objects, r.redoLines, top);
    ResolveSnoc(s.objects, s.lines, top);
  }

  /**
   * Undo and redo only walk along the history: neither changes the timeline, the
   * committed items followed by the undone ones in the order redo would restore them.
   */
  lemma UndoRedoKeepTimeline(s: Sketch)
    requires Valid(s)
    ensures Timeline(Undo(s)) == Timeline(s)
    ensures Timeline(Redo(s)) == Timeline(s)
  {
    if |s.lines| > 0 {
      var r := Undo(s);
      var top := s.lines[|s.lines| - 1];
      assert s.lines == r.lines + [top];
      MoveTopKeepsOrder(r.lines, s.redoLines, top);
    }
    if |s.redoLines| > 0 {
      var r := Redo(s);
      var top := s.redoLines[|s.redoLines| - 1];
      assert s.redoLines == r.redoLines + [top];
      MoveTopKeepsOrder(s.lines, r.redoLines, top);
    }
  }

  /** The sequence algebra behind both: the moved id keeps its place between the stacks. */
  lemma MoveTopKeepsOrder<T>(done: seq<T>, undone: seq<T>, top: T)
    ensures (done + [top]) + Reverse(undone) == done + Reverse(undone + [top])
  {
    ReverseSnoc(undone, top);
  }

  /**
   * Clear: every committed item goes away. The redo stack and the stroke in progress
   * are left as they are.
   */
  function Clear(s: Sketch): (r: Sketch)
    requires Valid(s)
    ensures Valid(r) && Committed(r) == [] && Undone(r) == Undone(s)
    ensures r.(lines := s.lines) == s
  {
    var r := s.(lines := []);
    assert r.lines + r.redoLines == s.redoLines;
    assert multiset(s.lines + s.redoLines) == multiset(s.lines) + multiset(s.redoLines);
    RearrangeKeepsValid(s, r);
    r
  }

  // ---------------------------------------------------------------------------
  // Tool buttons and inputs

  /** The Draw button: switch to freehand drawing. */
  function SelectDraw(s: Sketch): (r: Sketch)
    requires Valid(s)
    ensures Valid(r) && r.tools.mode == Drawing
    ensures r.tools.(mode := s.tools.mode) == s.tools && r.(tools := s.tools) == s
  {
    s.(tools := s.tools.(mode := Drawing))
  }

  /** `activateStickerTool`: switch to sticker placement with `emoji` selected. */
  function ActivateStickerTool(s: Sketch, emoji: string): (r: Sketch)
    requires Valid(s)
    ensures Valid(r) && r.tools.mode == StickerTool && r.tools.currentSticker == Some(emoji)
    ensures r.tools.(mode := s.tools.mode, currentSticker := s.tools.currentSticker) == s.tools
    ensures r.(tools := s.tools) == s
  {
    s.(tools := s.tools.(mode := StickerTool, currentSticker := Some(emoji)))
  }

  /** The colour picker: later strokes and the dot preview use `c`. */
  function SetColor(s: Sketch, c: Color): (r: Sketch)
    requires Valid(s)
    ensures Valid(r) && r.tools.color == c
    ensures r.tools.(color := s.tools.color) == s.tools && r.(tools := s.tools) == s
  {
    s.(tools := s.tools.(color := c))
  }

  /** The brush-size slider, already parsed to an integer. */
  function SetBrushWidth(s: Sketch, w: int): (r: Sketch)
    requires Valid(s)
    ensures Valid(r) && r.tools.width == w
    ensures r.tools.(width := s.tools.width) == s.tools && r.(tools := s.tools) == s
  {
    s.(tools := s.tools.(width := w))
  }

  /** The sticker-size slider, already parsed to an integer. */
  function SetStickerSize(s: Sketch, size: int): (r: Sketch)
    requires Valid(s)
    ensures Valid(r) && r.tools.stickerSize == size
    ensures r.tools.(stickerSize := s.tools.stickerSize) == s.tools && r.(tools := s.tools) == s
  {
    s.(tools := s.tools.(stickerSize := size))
  }

  /** The "+" button: the prompt's answer may add one trimmed glyph to the palette. */
  function AddCustomSticker(s: Sketch, input: Option<string>): (r: Sketch)
    requires Valid(s)
    ensures Valid(r) && r.(tools := s.tools) == s
    ensures r.tools.(stickers := s.tools.stickers) == s.tools
    ensures r.tools.stickers == Palette.AddCustomSticker(s.tools.stickers, input)
    ensures Palette.WellFormed(s.tools.stickers) ==> Palette.WellFormed(r.tools.stickers)
  {
    s.(tools := s.tools.(stickers := Palette.AddCustomSticker(s.tools.stickers, input)))
  }

  // ---------------------------------------------------------------------------
  // Rendering

  /** The item a press at the recorded cursor position would commit, if any. */
  function PendingItem(s: Sketch): Option<Renderable>
  {
    var at := Point(s.cursor.x, s.cursor.y);
    var t := s.tools;
    if t.mode == Drawing then Some(Line([at], t.color, t.width))
    else if Truthy(t.currentSticker) then Some(Sticker(at, t.currentSticker.value, t.stickerSize))
    else None
  }

  /** The items the hover preview shows: the pending item, while hovering. */
  function PreviewItems(s: Sketch): seq<Renderable>
  {
    if s.hovering && PendingItem(s).Some? then [PendingItem(s).value] else []
  }

  /**
   * The hover preview `redraw` adds after the committed items: a dot of the current
   * width and colour in Drawing mode, the selected glyph at the sticker size in Sticker
   * mode. It looks exactly like what a press at the cursor would commit.
   */
  function Preview(s: Sketch): (r: seq<DrawOp>)
    ensures |r| <= 1
    ensures r != [] <==> s.hovering && PendingItem(s).Some?
    ensures r != [] ==> r == Display(PendingItem(s).value)
  {
    var at := Point(s.cursor.x, s.cursor.y);
    var t := s.tools;
    if !s.hovering then []
    else if t.mode == Drawing then [FillCircle(at, t.width as real / 2.0, t.color)]
    else if Truthy(t.currentSticker) then [FillText(t.currentSticker.value, at, t.stickerSize)]
    else []
  }

  /** The preview reads back as the pending item, exactly when it is shown. */
  lemma RecoverPreview(s: Sketch)
    ensures Readback.Recover(Preview(s)) == PreviewItems(s)
  {
    if Preview(s) != [] {
      Readback.RecoverDisplay(PendingItem(s).value, []);
      assert Display(PendingItem(s).value) + [] == Preview(s);
    }
  }

  /**
   * `redraw`: clear the canvas, draw the committed items in order, then the preview.
   * Read back, the canvas shows exactly the committed items followed by the preview.
   */
  function Redraw(s: Sketch): (r: seq<DrawOp>)
    requires Valid(s)
    ensures |r| > 0 && r[0] == ClearRect(0, 0, CanvasSize, CanvasSize)
    ensures |r| == 1 + |DisplayAll(Committed(s))| + |PreviewItems(s)|
    ensures Readback.Recover(r) == Committed(s) + PreviewItems(s)
  {
    var body := DisplayAll(Committed(s)) + Preview(s);
    Readback.RecoverSkips(ClearRect(0, 0, CanvasSize, CanvasSize), body);
    Readback.RecoverDisplayAll(Committed(s), Preview(s));
    RecoverPreview(s);
    [ClearRect(0, 0, CanvasSize, CanvasSize)] + body
  }

  /** The operations an export issues before the first item: background, then scaling. */
  function ExportSetup(bg: Option<string>): seq<DrawOp>
  {
    var scale := [Scale(ExportScale)];
    if Truthy(bg) then [FillRect(bg.value, 0, 0, ExportSize, ExportSize)] + scale else scale
  }

  /**
   * `exportDrawing`: on a 1024x1024 image, fill the background when `bg` is truthy,
   * scale by 4 and draw the committed items. Read back, the image shows exactly the
   * committed items, whatever the cursor and tool state.
   */
  function Export(s: Sketch, bg: Option<string>): (r: seq<DrawOp>)
    requires Valid(s)
    ensures Readback.Recover(r) == Committed(s)
    ensures |r| >= 1 && (Truthy(bg) ==> |r| >= 2)
    ensures Truthy(bg) ==> r[..2] == [FillRect(bg.value, 0, 0, ExportSize, ExportSize), Scale(ExportScale)]
    ensures !Truthy(bg) ==> r[0] == Scale(ExportScale)
    ensures |r| == |ExportSetup(bg)| + |DisplayAll(Committed(s))|
  {
    var items := [Scale(ExportScale)] + DisplayAll(Committed(s));
    Readback.RecoverDisplayAll(Committed(s), []);
    assert DisplayAll(Committed(s)) + [] == DisplayAll(Committed(s));
    Readback.RecoverSkips(Scale(ExportScale), DisplayAll(Committed(s)));
    if Truthy(bg) then
      var fill := FillRect(bg.value, 0, 0, ExportSize, ExportSize);
      Readback.RecoverSkips(fill, items);
      [fill] + items
    else
      items
  }

  // ---------------------------------------------------------------------------
  // The colour text is painted in

  /**
   * In the exported image a sticker with no dot before it is painted in the fill style the
   * export starts with: the background colour when one is filled, the default black
   * otherwise. With the white background, such a sticker is painted white.
   */
  lemma ExportTextFill(s: Sketch, bg: Option<string>, j: nat)
    requires Valid(s) && j < |Committed(s)| && Committed(s)[j].Sticker?
    requires FillStyle.NoDots(Committed(s)[..j])
    ensures var r := Export(s, bg);
            var item := Committed(s)[j];
            var n := |ExportSetup(bg)| + |DisplayAll(Committed(s)[..j])|;
            n < |r| && r[n] == FillText(item.emoji, item.pos, item.fontSize)
            && FillStyle.FillAfter(FillStyle.DefaultFill, r[..n])
               == if Truthy(bg) then bg.value else FillStyle.DefaultFill
  {
    ExportSplits(s, bg);
    ExportSetupFill(bg);
    FillStyle.TextFill(FillStyle.DefaultFill, Export(s, bg), ExportSetup(bg), Committed(s), [], j);
  }

  lemma ExportSplits(s: Sketch, bg: Option<string>)
    requires Valid(s)
    ensures Export(s, bg) == ExportSetup(bg) + DisplayAll(Committed(s)) + []
  {
    var d := DisplayAll(Committed(s));
    assert d + [] == d;
    if Truthy(bg) {
      AppendAssoc([FillRect(bg.value, 0, 0, ExportSize, ExportSize)], [Scale(ExportScale)], d);
    }
  }

  /** The setup leaves the background colour as the fill style, or the default when none. */
  lemma ExportSetupFill(bg: Option<string>)
    ensures FillStyle.FillAfter(FillStyle.DefaultFill, ExportSetup(bg))
            == if Truthy(bg) then bg.value else FillStyle.DefaultFill
  {
    var scale := [Scale(ExportScale)];
    var after := if Truthy(bg) then bg.value else FillStyle.DefaultFill;
    assert scale[1..] == [];
    assert FillStyle.FillAfter(after, scale) == FillStyle.FillAfter(after, []);
    if Truthy(bg) {
      var setup := ExportSetup(bg);
      assert setup[1..] == scale;
      assert FillStyle.FillAfter(FillStyle.DefaultFill, setup) == FillStyle.FillAfter(after, scale);
    }
  }

  /**
   * On screen a sticker with no dot before it is painted in the fill style the canvas had
   * before this redraw began: clearing does not reset it.
   */
  lemma RedrawTextFill(s: Sketch, fill: Color, j: nat)
    requires Valid(s) && j < |Committed(s)| && Committed(s)[j].Sticker?
    requires FillStyle.NoDots(Committed(s)[..j])
    ensures var r := Redraw(s);
            var item := Committed(s)[j];
            var n := 1 + |DisplayAll(Committed(s)[..j])|;
            n < |r| && r[n] == FillText(item.emoji, item.pos, item.fontSize)
            && FillStyle.FillAfter(fill, r[..n]) == fill
  {
    var clear: seq<DrawOp> := [ClearRect(0, 0, CanvasSize, CanvasSize)];
    AppendAssoc(clear, DisplayAll(Committed(s)), Preview(s));
    FillStyle.TextFill(fill, Redraw(s), clear, Committed(s), Preview(s), j);
  }

  /**
   * A redraw with the brush preview showing leaves the canvas fill style at the brush
   * colour, which the stickers of the next redraw then inherit.
   */
  lemma RedrawLeavesFill(s: Sketch, fill: Color)
    requires Valid(s) && s.hovering && s.tools.mode == Drawing
    ensures FillStyle.FillAfter(fill, Redraw(s)) == s.tools.color
  {
    var clear: seq<DrawOp> := [ClearRect(0, 0, CanvasSize, CanvasSize)];
    AppendAssoc(clear, DisplayAll(Committed(s)), Preview(s));
    FillStyle.FillAfterAppend(fill, clear + DisplayAll(Committed(s)), Preview(s));
  }
}
